=== FILE: README.md ===
# aws-vsock-proxy: request dispatch, transport selection and handler validation

A Dafny model of the decision logic of a small control-plane server that runs inside an
isolated enclave and talks to its host over vsock. Three pieces are modelled, each as a
pure function with proved properties:

- **Dispatcher** (`internal/server.go`, `APIHandler` and `handleWithPanicRecovery`).
  Per request it picks the input source. The query string is used when it has any
  parameter; otherwise the JSON body is used, and an empty body gives the zero value.
  It then runs the handler inside a panic boundary and writes exactly one
  `{statusCode, body}` envelope: 200 with the output, 400 with a `BadRequestError`'s
  reason or a decoder's error text, or 500 with the fixed text "Internal server error".
  The decoders and the handler are function parameters. `Serve` records the input the
  handler ran on, or none when decoding failed.
- **Transport selection** (`listen`). A vsock bind that fails with an error mentioning
  "vsock: not implemented" falls back to TCP on `":<port>"`. Any other result is
  returned unchanged. Both bind calls are oracles.
- **Handlers** (`internal/handler.go`). The health check; the secret handler's input
  check and its classification of store errors; the upload handler's ordered checks
  (bucket, key, data, base64) and the upload request it builds. The secret store and
  the object store are functions from request to reply, and each run records the call
  it made, if any.

Supporting modules:

- `Errors`: Go error values. `FindBadRequest` models `errors.As` for `*BadRequestError`
  along the `Unwrap` chain. `Message` models `Error()` with github.com/pkg/errors'
  "context: cause" format.
- `Base64`: `base64.StdEncoding.DecodeString` as Go implements it. This is section 4 of
  RFC 4648 with padding required. The decoder is not strict, so CR and LF are skipped
  anywhere and unused bits of a padded final group are ignored. A rejected input is
  reported with the offset Go's `CorruptInputError` carries. Its partners are the
  encoder (round trip) and a grammar of well-formed text (accepted-language iff).
- `Utf8`: the text a Go string of bytes carries to a JSON client. encoding/json reads
  it as UTF-8 (section 3 of RFC 3629) and writes U+FFFD for each byte that starts no
  valid encoding. Its partner is the UTF-8 encoder.
- `Decimal`: the `%d` rendering used for the fallback address and the error offsets,
  with a parser as its partner.
- `Strings`: `strings.Contains` as a left-to-right scan, proved equal to "some window
  equals the pattern".

internal/handler.go:43 builds `NotFound(...)`, but the dispatcher recognises only
`BadRequestError` (internal/server.go:124-127). `NotFound` is not defined in any file
modelled here. The model takes its value to be an error of another type, so through the
dispatcher a store error containing "Code: 400" ends as the fixed 500, like every other
store failure (`Handlers.SecretEndpoint`).

## Model

| member | source | states |
|---|---|---|
| `Dispatcher.OkResponse` | internal/server.go:71-76 | The success envelope carries status 200 and the body it is given. |
| `Dispatcher.BadRequestReply` | internal/server.go:89-96 | A 400 reply: the status line and the envelope's `statusCode` are both 400, and the envelope carries the reason. |
| `Dispatcher.InternalErrorReply` | internal/server.go:97-104 | A 500 reply: the status line and the envelope's `statusCode` are both 500, and the envelope carries only "Internal server error". |
| `Dispatcher.DecodeInput` | internal/server.go:106-120 | With query parameters, the query decoder alone decides: its error rejects the input, its value is the input. Without them, the body decoder decides, and io.EOF gives the zero value. A rejection carries the deciding decoder's text. |
| `Dispatcher.Respond` | internal/server.go:122-136 | The status line and the envelope's `statusCode` agree. 200 exactly when there is no error, with the output. 400 exactly when the error holds a `BadRequestError`, with its reason. Otherwise 500 with the fixed text. |
| `Dispatcher.Serve` | internal/server.go:84-138 | Every reply's envelope `statusCode` equals the status written. The status is 200, 400 or 500. A 500 always carries "Internal server error". The handler runs exactly when decoding succeeds, and on the decoded value. A 200 comes only from a handler that returned no error, and carries that handler's output. |
| `Dispatcher.QueryTakesPrecedence` | internal/server.go:106-112 | With at least one query parameter, neither the body text nor the body decoder affects the exchange. |
| `Dispatcher.BodyWithoutQuery` | internal/server.go:113-120 | With no query parameter, the query decoder is never consulted. |
| `Dispatcher.EmptyBodyRunsOnZero` | internal/server.go:113-119 | An empty body (io.EOF) is not an error: the handler runs on the zero value. |
| `Dispatcher.DecodeFailureIsBadRequest` | internal/server.go:107-119 | A query or body decoding error gives exactly the reply {400, decoder text}, and the handler never runs. |
| `Dispatcher.BadRequestErrorIs400` | internal/server.go:122-127 | A handler error that is a `BadRequestError`, or wraps one at any depth, gives {400, its reason}, whatever output was also returned. |
| `Dispatcher.OtherErrorsAreHidden` | internal/server.go:97-104 | Any other handler error gives {500, "Internal server error"}. Two handlers whose errors differ in every detail get the same exchange, so no error detail reaches the client. |
| `Dispatcher.Recover` | internal/server.go:140-150 | A returning handler's results pass through unchanged. A panic becomes a nil output plus the error "panic: <value>", which is not a `BadRequestError`. |
| `Dispatcher.PanicIsInternalError` | internal/server.go:122-130 | A panicking handler does not escape: the exchange is the fixed 500 for the input it ran on. |
| `Dispatcher.SuccessIsOk` | internal/server.go:133-136 | A handler returning no error gives {200, output}. A nil output is carried as nil. |
| `Dispatcher.BadRequestExactly` | internal/server.go:106-131 | Both directions: status 400 occurs exactly when decoding failed or the handler's error holds a `BadRequestError`. |
| `Errors.BadRequest` | internal/server.go:78-80 | `BadRequest(reason)` is recognised by `errors.As` with that reason, and its `Error()` text is the reason. |
| `Errors.Message` | internal/server.go:62-64 | `Error()` of any error ends with the text of its root cause. A wrapped error's text starts with its context and ": ". |
| `Errors.FindBadRequest` | internal/server.go:124-125 | `errors.As` finds a `BadRequestError` in a chain exactly when the chain ends in one, and then yields that error's reason. |
| `Errors.WrappingKeepsBadRequest` | internal/server.go:124-127 | Wrapping an error in any number of contexts changes nothing about what `errors.As` finds. |
| `Errors.Wrap` | internal/handler.go:100 | `errors.Wrapf` keeps a nil error nil. Otherwise it keeps the root cause and the `errors.As` result, and prefixes the text with the context. |
| `Transport.Listen` | internal/server.go:45-52 | TCP is tried exactly when the vsock bind failed with text containing "vsock: not implemented". It is then tried on `TcpAddress(port)` and its result is returned. Otherwise the vsock result is returned unchanged. |
| `Transport.TcpAddress` | internal/server.go:49 | The fallback address is ":" followed by decimal digits that parse back to the configured port. |
| `Transport.FallsBackWhenNotImplemented` | internal/server.go:47-49 | An error with the marker anywhere in its text falls back to TCP on the same port. |
| `Transport.OtherFailuresPropagate` | internal/server.go:47-51 | A bind error whose text nowhere contains the marker is returned as it is, and no TCP bind is made. |
| `Transport.VsockKeptOnSuccess` | internal/server.go:46-51 | A successful vsock bind is returned, and TCP is never tried. |
| `Strings.Contains` | internal/server.go:47 | The scan succeeds whenever the text starts with the pattern, and never when the pattern is longer than the text. |
| `Strings.ContainsIffOccurs` | internal/server.go:47 | The `strings.Contains` scan succeeds exactly when some window of the text equals the pattern. |
| `Decimal.Format` | internal/server.go:49 | `%d` of a natural number is a non-empty run of decimal digits with no leading zero. |
| `Decimal.ParseFormat` | internal/server.go:49 | Parsing the `%d` rendering of a number gives the number back. |
| `Handlers.HealthHandler` | internal/handler.go:20-23 | Whatever the input, the handler returns `{"status": "healthy"}` and no error. |
| `Handlers.HealthEndpoint` | internal/handler.go:20-23 | Whatever input decodes, the health endpoint replies {200, {"status": "healthy"}}. |
| `Handlers.GetSecret` | internal/handler.go:33-55 | The store is queried exactly when `secretId` is non-empty, and with that identifier. An empty identifier gives `BadRequest("secretId is required")`. No other path yields a `BadRequestError`. An error comes with a nil output. Success means the store found a value and the output is its text. |
| `Handlers.SecretValuePrecedence` | internal/handler.go:47-53 | `SecretString` wins over `SecretBinary`. The binary form is returned as its UTF-8 reading (`Utf8.Decode`), with U+FFFD for each byte that starts no valid encoding. With neither, the fixed "neither string nor binary" error is returned. |
| `Handlers.SecretText` | internal/handler.go:47-53 | The secret has a text exactly when one of its forms is set. The string form wins; otherwise the text is the UTF-8 reading of the binary form. |
| `Handlers.BinaryFormSameText` | internal/handler.go:47-53 | A secret stored in binary form as the UTF-8 bytes of a text reaches the client as the same text as when stored in string form. |
| `Handlers.AsciiBinarySecret` | internal/handler.go:51 | A binary secret of bytes below 0x80 reads as one character per byte, each with its byte's code. |
| `Utf8.DecodeRune` | internal/handler.go:51 | Reading one rune of `string(bytes)` takes 1 to 4 bytes. ASCII is one character of the same code. Any non-ASCII read that takes one byte, whether the byte cannot start an encoding or the sequence it starts is invalid or cut short, gives U+FFFD. A longer rune's length is the one its leading byte announces. |
| `Utf8.Decode` | internal/handler.go:51 | The text of `string(bytes)` has at most as many characters as there are bytes. |
| `Utf8.DecodeEncode` | internal/handler.go:51 | Any text stored as its UTF-8 bytes and read back is the same text. |
| `Utf8.EncodeDecodeRune` | internal/handler.go:51 | Conversely, whatever is read as a rune other than a one-byte replacement is exactly that rune's UTF-8 encoding. |
| `Handlers.StoreCode400IsNotFound` | internal/handler.go:41-44 | A store error with "Code: 400" anywhere in its text becomes `NotFound("secret not found: " + id)`. |
| `Handlers.OtherStoreErrorsAreWrapped` | internal/handler.go:41-46 | Any other store error is returned wrapped. It is not a `BadRequestError`, and its text is "getting secret <id>: <store text>". |
| `Handlers.SecretEndpoint` | internal/handler.go:35-46 | Through the dispatcher, an empty id gives {400, "secretId is required"}. Every store failure, "Code: 400" included, gives the fixed 500. |
| `Handlers.UploadProblem` | internal/handler.go:68-81 | Checks run in the order bucket, key, data, base64, and the first one failing gives the reason. A base64 failure's reason is "invalid base64 data: " plus the decoder's error text. All pass exactly when the data decodes. |
| `Handlers.PutInput` | internal/handler.go:90-97 | Bucket and key are passed through unchanged. The body is the decoded bytes. `ContentType` is set exactly when the given one is non-empty. |
| `Handlers.S3Put` | internal/handler.go:66-102 | An upload happens exactly when no check fails. A failed check gives a nil output and `BadRequest(reason)`. An upload returns an empty response, with an error exactly when the store reported one; that error is never a `BadRequestError`. |
| `Handlers.InvalidBase64Rejected` | internal/handler.go:78-81 | With bucket, key and data given, data that with newlines removed is not well-formed padded base64 is rejected with a `BadRequestError` whose reason starts with "invalid base64 data: ", and nothing is uploaded. |
| `Handlers.UploadsExactlyWellFormed` | internal/handler.go:68-97 | With bucket, key and data given, the upload happens exactly when the data, newlines removed, is well-formed padded base64. |
| `Handlers.UploadCarriesEncodedBytes` | internal/handler.go:78-97 | Sending the base64 encoding of one or more bytes uploads exactly those bytes, under the given bucket and key. |
| `Handlers.UploadEndpoint` | internal/handler.go:66-102 | Through the dispatcher: a failed check gives {400, reason}, a failed upload gives the fixed 500, and a completed upload gives {200, {}}. |
| `Base64.CorruptText` | internal/handler.go:80 | `CorruptInputError.Error()` is "illegal base64 data at input byte " followed by decimal digits that parse back to the offset. |
| `Base64.DecodeFrom` | internal/handler.go:78-81 | A rejection from a given position reports an offset between the start of the current group and the end of the input. |
| `Base64.Decode` | internal/handler.go:78-81 | A rejection reports an offset within the input. Empty input decodes to no bytes. |
| `Base64.RejectsStray` | internal/handler.go:78-81 | A character that is not alphabet, newline or "=", or an "=" with fewer than two characters read in its group, is reported at its own offset, and the text is not well-formed. |
| `Base64.DecodeAccepts` | internal/handler.go:78-81 | `DecodeString` succeeds exactly on text that, with CR/LF removed, is a sequence of 4-character groups. Every group is alphabet-only, except that the last may end in "=" or "==". |
| `Base64.RoundTrip` | internal/handler.go:78 | Decoding the standard padded encoding of any bytes gives those bytes back. |
| `Base64.EncodeWellFormed` | internal/handler.go:78 | The standard encoder only produces well-formed padded text. |
| `Base64.CharOf` | internal/handler.go:78 | Each 6-bit value maps to an alphabet character that decodes back to that value. |
| `Base64.CharOfSextetOf` | internal/handler.go:78 | Each alphabet character is the encoding of its own value, so the alphabet is a bijection. |

## Left out

- Serving and routing: `Server.Serve`/`Close`, `registerRoutes` and the gorilla/mux route table. These are transport plumbing of external libraries. `registerRoutes` takes one argument at internal/server.go:54, but internal/run.go:35 calls it with two and expects an error back.
- Lifecycle (internal/run.go): signal handling, goroutines and context cancellation. These are concurrency outside the request path.
- Configuration loading (internal/config.go): the environment is read by envconfig. Only the default port 8080 is kept, as `Transport.DefaultServerPort`. The 3 s and 10 s timeouts act only inside `http.Server`.
- Logging (internal/logger.go and every `log.*` call): side effects only. The model therefore cannot state "the error is logged".
- JSON encoding of the envelope, and encoding failures after the status line. These are logged only and cannot change the status already written.
- The decoders: `schema.Decoder`, `json.Decoder` and `url.Values` parsing of the raw query are foreign libraries. They appear only as the outcomes they report: a value, io.EOF, or an error text.
- `Dispatcher.Recover`: the panic value is taken as its `%s` rendering. `panic(nil)` is not modelled, because its recovery depends on the Go version.
- The AWS SDK calls `GetSecretValue` and `PutObject` appear only as oracle replies: a value or an error text, and for uploads nil or an error text. The context argument and request cancellation are not modelled.
- Partial base64 output: a rejected input is reported by its error offset only. The partial output that Go's `DecodeString` returns with an error is not modelled, because the upload handler discards it.
- Go strings are byte strings. The model uses `seq<char>` for the text a client sends or receives. A binary secret becomes that text through `Utf8.Decode`, which is how encoding/json writes `string(bytes)`. Every offset the base64 decoder reports follows only ASCII characters, so the character offset equals Go's byte offset.
- `Errors.FindBadRequest`: the `Error` datatype holds only linear `Unwrap` chains. Go's `errors.As` also searches the `Unwrap() []error` trees that `errors.Join` builds. No handler here builds such a tree, so no reply changes.
- `Errors.NotFoundError`: `NotFound` is not defined in any file modelled here. The model assumes it returns a type other than `*BadRequestError`. If it returned a `*BadRequestError`, a "Code: 400" store error would reach the client as a 400.
- `Handlers.HealthEndpoint`: `HealthHandler` takes `*any`, and gorilla/schema refuses a target that is not a pointer to a struct. So any query parameter on `GET /` gives a 400 from the decoder, and the endpoint's precondition holds only for requests without one. The decoders stay abstract, so the model does not derive this.

=== FILE: base64.dfy ===
/**
 * Standard base64 with padding (section 4 of RFC 4648), decoded the way Go's
 * `base64.StdEncoding.DecodeString` does it: the encoding is not strict, so
 * carriage returns and line feeds anywhere in the input are skipped and the
 * unused bits of a padded final group are ignored. A rejected input is reported
 * as a `CorruptInputError` carrying an input offset.
 */
module Base64 {
  import opened Wrappers
  import opened Decimal
  import opened Bytes

  type sextet = x: int | 0 <= x < 64

  const PadChar: char := '='

  /** The 64 characters of the standard alphabet (Table 1 of RFC 4648). */
  predicate IsAlphabet(c: char) {
    'A' <= c <= 'Z' || 'a' <= c <= 'z' || '0' <= c <= '9' || c == '+' || c == '/'
  }

  predicate AllAlphabet(s: string) {
    forall i :: 0 <= i < |s| ==> IsAlphabet(s[i])
  }

  /** Characters the decoder skips wherever they occur. */
  predicate IsNewline(c: char) {
    c == '\n' || c == '\r'
  }

  /** The value an alphabet character encodes. */
  function SextetOf(c: char): sextet
    requires IsAlphabet(c)
  {
    if 'A' <= c <= 'Z' then (c as int) - ('A' as int)
    else if 'a' <= c <= 'z' then (c as int) - ('a' as int) + 26
    else if '0' <= c <= '9' then (c as int) - ('0' as int) + 52
    else if c == '+' then 62
    else 63
  }

  /** The alphabet character that encodes `v`. */
  function CharOf(v: sextet): (c: char)
    ensures IsAlphabet(c) && SextetOf(c) == v
  {
    if v < 26 then ('A' as int + v) as char
    else if v < 52 then ('a' as int + v - 26) as char
    else if v < 62 then ('0' as int + v - 52) as char
    else if v == 62 then '+'
    else '/'
  }

  /** The alphabet is a bijection: every alphabet character is the encoding of its own value. */
  lemma CharOfSextetOf(c: char)
    requires IsAlphabet(c)
    ensures CharOf(SextetOf(c)) == c
  {
  }

  /**
   * The bytes carried by the 2, 3 or 4 alphabet characters of one group: 8 bits
   * per byte taken from 6 bits per character, left over bits dropped.
   */
  function GroupBytes(g: seq<char>): (b: seq<byte>)
    requires 2 <= |g| <= 4 && AllAlphabet(g)
    ensures |b| == |g| - 1
  {
    var s0 := SextetOf(g[0]);
    var s1 := SextetOf(g[1]);
    var b0 := s0 * 4 + s1 / 16;
    if |g| == 2 then [b0]
    else
      var s2 := SextetOf(g[2]);
      var b1 := (s1 % 16) * 16 + s2 / 4;
      if |g| == 3 then [b0, b1]
      else [b0, b1, (s2 % 4) * 64 + SextetOf(g[3])]
  }

  /** The four characters encoding three bytes. */
  function EncodeGroup(x: byte, y: byte, z: byte): (g: string)
    ensures |g| == 4 && AllAlphabet(g)
  {
    [CharOf(x / 4), CharOf(x % 4 * 16 + y / 16), CharOf(y % 16 * 4 + z / 64), CharOf(z % 64)]
  }

  /** `base64.StdEncoding.EncodeToString`: full groups, then a final group padded with "=" or "==". */
  function Encode(b: seq<byte>): (s: string)
    ensures |s| == (|b| + 2) / 3 * 4
    decreases |b|
  {
    if |b| == 0 then ""
    else if |b| == 1 then [CharOf(b[0] / 4), CharOf(b[0] % 4 * 16), PadChar, PadChar]
    else if |b| == 2 then [CharOf(b[0] / 4), CharOf(b[0] % 4 * 16 + b[1] / 16), CharOf(b[1] % 16 * 4), PadChar]
    else EncodeGroup(b[0], b[1], b[2]) + Encode(b[3..])
  }

  /** The result of decoding: the bytes, or the input offset a `CorruptInputError` reports. */
  datatype DecodeResult = Decoded(bytes: seq<byte>) | Corrupt(offset: nat)

  /** `CorruptInputError.Error()`. */
  function CorruptText(offset: nat): (t: string)
    ensures |t| > 34 && t[..34] == "illegal base64 data at input byte " && Parse(t[34..]) == Some(offset)
  {
    ParseFormat(offset);
    var t := "illegal base64 data at input byte " + Format(offset);
    assert t[34..] == Format(offset);
    t
  }

  /** The first index at or after `i` that does not hold a newline character. */
  function SkipNewlines(s: string, i: nat): (k: nat)
    requires i <= |s|
    ensures i <= k <= |s|
    ensures forall j :: i <= j < k ==> IsNewline(s[j])
    ensures k < |s| ==> !IsNewline(s[k])
    decreases |s| - i
  {
    if i < |s| && IsNewline(s[i]) then SkipNewlines(s, i + 1) else i
  }

  /** After the padding of a final group of 2 or 3 characters only newlines may follow. */
  function Trailer(s: string, i: nat, group: seq<char>): DecodeResult
    requires i <= |s| && 2 <= |group| <= 3 && AllAlphabet(group)
  {
    var k := SkipNewlines(s, i);
    if k < |s| then Corrupt(k) else Decoded(GroupBytes(group))
  }

  /** The rest of the input after a first "=" at index `i - 1`: a group of two needs a second "=". */
  function Padding(s: string, i: nat, group: seq<char>): DecodeResult
    requires 1 <= i <= |s| && 2 <= |group| <= 3 && AllAlphabet(group)
  {
    if |group| == 3 then Trailer(s, i, group)
    else
      var k := SkipNewlines(s, i);
      if k == |s| then Corrupt(|s|)
      else if s[k] != PadChar then Corrupt(k - 1)
      else Trailer(s, k + 1, group)
  }

  /** Puts the bytes of one group in front of a decoding result; an error stays as it is. */
  function Prepend(b: seq<byte>, r: DecodeResult): DecodeResult {
    match r
    case Decoded(rest) => Decoded(b + rest)
    case Corrupt(offset) => Corrupt(offset)
  }

  /**
   * Decodes `s` from index `si`, where `group` holds the alphabet characters of
   * the current group read so far (the `j` loop of Go's `decodeQuantum`, run
   * group after group by `Decode`).
   */
  function DecodeFrom(s: string, si: nat, group: seq<char>): (r: DecodeResult)
    requires si <= |s| && |group| <= si && |group| < 4 && AllAlphabet(group)
    ensures r.Corrupt? ==> si - |group| <= r.offset <= |s|
    decreases |s| - si
  {
    if si == |s| then
      if |group| == 0 then Decoded([]) else Corrupt(si - |group|)
    else if IsAlphabet(s[si]) then
      if |group| == 3 then Prepend(GroupBytes(group + [s[si]]), DecodeFrom(s, si + 1, []))
      else DecodeFrom(s, si + 1, group + [s[si]])
    else if IsNewline(s[si]) then DecodeFrom(s, si + 1, group)
    else if s[si] != PadChar || |group| < 2 then Corrupt(si)
    else Padding(s, si + 1, group)
  }

  /** `base64.StdEncoding.DecodeString(s)`. */
  function Decode(s: string): (r: DecodeResult)
    ensures r.Corrupt? ==> r.offset <= |s|
    ensures |s| == 0 ==> r == Decoded([])
  {
    DecodeFrom(s, 0, [])
  }

  // ---------------------------------------------------------------------------
  // Reference definition of the accepted language

  /** `s` without its newline characters. */
  function Strip(s: string): string
    decreases |s|
  {
    if |s| == 0 then [] else (if IsNewline(s[0]) then [] else [s[0]]) + Strip(s[1..])
  }

  /** A group of four alphabet characters. */
  predicate FullGroup(g: string) {
    |g| == 4 && AllAlphabet(g)
  }

  /** A last group: four alphabet characters, or three and "=", or two and "==". */
  predicate FinalGroup(g: string) {
    && |g| == 4
    && IsAlphabet(g[0]) && IsAlphabet(g[1])
    && ((IsAlphabet(g[2]) && (IsAlphabet(g[3]) || g[3] == PadChar)) || (g[2] == PadChar && g[3] == PadChar))
  }

  /** Padded base64 text: groups of four characters, only the last of which may carry padding. */
  predicate WellFormed(t: string)
    decreases |t|
  {
    if |t| == 0 then true
    else if |t| == 4 then FinalGroup(t)
    else |t| > 4 && FullGroup(t[..4]) && WellFormed(t[4..])
  }

  // ---------------------------------------------------------------------------
  // Properties

  lemma StripStep(s: string, i: nat)
    requires i < |s|
    ensures Strip(s[i..]) == (if IsNewline(s[i]) then [] else [s[i]]) + Strip(s[i + 1..])
  {
  }

  lemma {:induction false} StripNewlineRun(s: string, i: nat, k: nat)
    requires i <= k <= |s|
    requires forall j :: i <= j < k ==> IsNewline(s[j])
    ensures Strip(s[i..]) == Strip(s[k..])
    decreases k - i
  {
    if i < k {
      StripStep(s, i);
      StripNewlineRun(s, i + 1, k);
    }
  }

  /** What every non-empty well-formed text begins with. */
  lemma WellFormedHead(t: string)
    requires WellFormed(t) && |t| > 0
    ensures |t| >= 4 && IsAlphabet(t[0]) && IsAlphabet(t[1])
    ensures IsAlphabet(t[2]) || (t[2] == PadChar && t[3] == PadChar && |t| == 4)
    ensures IsAlphabet(t[3]) || (t[3] == PadChar && |t| == 4)
  {
  }

  /** A full group in front changes nothing about well-formedness. */
  lemma WellFormedAfterGroup(g: string, r: string)
    requires FullGroup(g)
    ensures WellFormed(g + r) <==> WellFormed(r)
  {
  }

  /** One alphabet character read into an unfinished group. */
  lemma StepIntoGroup(s: string, si: nat, group: seq<char>)
    requires si < |s| && |group| <= si && |group| < 3 && AllAlphabet(group) && IsAlphabet(s[si])
    ensures DecodeFrom(s, si, group) == DecodeFrom(s, si + 1, group + [s[si]])
  {
  }

  /** The fourth alphabet character completes a group. */
  lemma StepCompleteGroup(s: string, si: nat, group: seq<char>)
    requires si < |s| && |group| <= si && |group| == 3 && AllAlphabet(group) && IsAlphabet(s[si])
    ensures DecodeFrom(s, si, group) == Prepend(GroupBytes(group + [s[si]]), DecodeFrom(s, si + 1, []))
  {
  }

  /** A first "=" after two or three characters. */
  lemma StepPadding(s: string, si: nat, group: seq<char>)
    requires si < |s| && |group| <= si && 2 <= |group| <= 3 && AllAlphabet(group) && s[si] == PadChar
    ensures DecodeFrom(s, si, group) == Padding(s, si + 1, group)
  {
  }

  /** A newline is skipped wherever it occurs. */
  lemma StepNewline(s: string, si: nat, group: seq<char>)
    requires si < |s| && |group| <= si && |group| < 4 && AllAlphabet(group) && IsNewline(s[si])
    ensures DecodeFrom(s, si, group) == DecodeFrom(s, si + 1, group)
  {
  }

  /** At the end of the input only an empty group is accepted. */
  lemma AcceptsAtEnd(s: string, group: seq<char>)
    requires |group| <= |s| && |group| < 4 && AllAlphabet(group)
    ensures DecodeFrom(s, |s|, group).Decoded? <==> WellFormed(group + Strip(s[|s|..]))
  {
  }

  /** A character outside the alphabet, or padding too early in a group, is rejected. */
  lemma RejectsStray(s: string, si: nat, group: seq<char>)
    requires si < |s| && |group| <= si && |group| < 4 && AllAlphabet(group)
    requires !IsAlphabet(s[si]) && !IsNewline(s[si]) && (s[si] != PadChar || |group| < 2)
    ensures DecodeFrom(s, si, group) == Corrupt(si)
    ensures !WellFormed(group + Strip(s[si..]))
  {
    var t := group + Strip(s[si..]);
    StripStep(s, si);
    assert t[|group|] == s[si];
    if WellFormed(t) {
      WellFormedHead(t);
    }
  }

  /** What is left after a suffix is stripped is empty exactly when only newlines remain. */
  lemma StripEmpty(s: string, i: nat)
    requires i <= |s|
    ensures Strip(s[i..]) == [] <==> SkipNewlines(s, i) == |s|
  {
    var k := SkipNewlines(s, i);
    StripNewlineRun(s, i, k);
    if k < |s| {
      StripStep(s, k);
    } else {
      assert s[k..] == [];
    }
  }

  /** The tail after the padding is accepted exactly when it holds nothing but newlines. */
  lemma TrailerAccepts(s: string, i: nat, group: seq<char>)
    requires i <= |s| && 2 <= |group| <= 3 && AllAlphabet(group)
    ensures Trailer(s, i, group).Decoded? <==> Strip(s[i..]) == []
  {
    StripEmpty(s, i);
  }

  /** After a first "=", a group of two needs exactly one more "=", and then only newlines. */
  lemma PairPaddingAccepts(s: string, i: nat, group: seq<char>)
    requires 1 <= i <= |s| && |group| == 2 && AllAlphabet(group)
    ensures Padding(s, i, group).Decoded? <==> Strip(s[i..]) == [PadChar]
  {
    var k := SkipNewlines(s, i);
    StripNewlineRun(s, i, k);
    if k == |s| {
      assert s[k..] == [];
    } else {
      StripStep(s, k);
      var rest := Strip(s[k + 1..]);
      assert Strip(s[k..]) == [s[k]] + rest;
      if s[k] == PadChar {
        assert Padding(s, i, group) == Trailer(s, k + 1, group);
        TrailerAccepts(s, k + 1, group);
      } else {
        assert Padding(s, i, group) == Corrupt(k - 1);
        assert Strip(s[k..])[0] == s[k];
      }
    }
  }

  /** After a first "=", a group of two needs exactly one more "=", a group of three nothing more. */
  lemma PaddingAccepts(s: string, i: nat, group: seq<char>)
    requires 1 <= i <= |s| && 2 <= |group| <= 3 && AllAlphabet(group)
    ensures Padding(s, i, group).Decoded? <==> Strip(s[i..]) == (if |group| == 2 then [PadChar] else [])
  {
    if |group| == 3 {
      TrailerAccepts(s, i, group);
    } else {
      PairPaddingAccepts(s, i, group);
    }
  }

  /** Two or three characters and a first "=" are well-formed with exactly the padding that completes the group. */
  lemma WellFormedPadded(group: string, r: string)
    requires 2 <= |group| <= 3 && AllAlphabet(group)
    ensures WellFormed(group + [PadChar] + r) <==> r == (if |group| == 2 then [PadChar] else [])
  {
    var t := group + [PadChar] + r;
    if r == (if |group| == 2 then [PadChar] else []) {
      assert |t| == 4 && FinalGroup(t);
    } else if WellFormed(t) {
      WellFormedHead(t);
    }
  }

  /** A first "=" after two or three characters. */
  lemma AcceptsPadding(s: string, si: nat, group: seq<char>)
    requires si < |s| && |group| <= si && 2 <= |group| <= 3 && AllAlphabet(group) && s[si] == PadChar
    ensures DecodeFrom(s, si, group).Decoded? <==> WellFormed(group + Strip(s[si..]))
  {
    var rest := Strip(s[si + 1..]);
    StepPadding(s, si, group);
    PaddingAccepts(s, si + 1, group);
    StripStep(s, si);
    assert Strip(s[si..]) == [PadChar] + rest;
    assert group + ([PadChar] + rest) == group + [PadChar] + rest;
    WellFormedPadded(group, rest);
  }

  /**
   * The decoder accepts exactly the well-formed texts interleaved with newlines,
   * stated from any point of the scan.
   */
  lemma {:induction false} DecodeFromAccepts(s: string, si: nat, group: seq<char>)
    requires si <= |s| && |group| <= si && |group| < 4 && AllAlphabet(group)
    ensures DecodeFrom(s, si, group).Decoded? <==> WellFormed(group + Strip(s[si..]))
    decreases |s| - si
  {
    if si == |s| {
      AcceptsAtEnd(s, group);
    } else {
      var c := s[si];
      if IsAlphabet(c) {
        StripStep(s, si);
        assert group + Strip(s[si..]) == (group + [c]) + Strip(s[si + 1..]);
        if |group| == 3 {
          StepCompleteGroup(s, si, group);
          DecodeFromAccepts(s, si + 1, []);
          assert [] + Strip(s[si + 1..]) == Strip(s[si + 1..]);
          WellFormedAfterGroup(group + [c], Strip(s[si + 1..]));
        } else {
          StepIntoGroup(s, si, group);
          DecodeFromAccepts(s, si + 1, group + [c]);
        }
      } else if IsNewline(c) {
        StripStep(s, si);
        assert Strip(s[si..]) == Strip(s[si + 1..]);
        StepNewline(s, si, group);
        DecodeFromAccepts(s, si + 1, group);
      } else if c != PadChar || |group| < 2 {
        RejectsStray(s, si, group);
      } else {
        AcceptsPadding(s, si, group);
      }
    }
  }

  /** `DecodeString` succeeds exactly on padded base64 text, wherever newlines are inserted. */
  lemma DecodeAccepts(s: string)
    ensures Decode(s).Decoded? <==> WellFormed(Strip(s))
  {
    DecodeFromAccepts(s, 0, []);
    assert s[0..] == s;
    assert [] + Strip(s) == Strip(s);
  }

  /** The characters of one full group give back the three bytes they encode. */
  lemma GroupRoundTrip(x: byte, y: byte, z: byte)
    ensures GroupBytes(EncodeGroup(x, y, z)) == [x, y, z]
  {
    var s1 := x % 4 * 16 + y / 16;
    var s2 := y % 16 * 4 + z / 64;
    assert s1 / 16 == x % 4 && s1 % 16 == y / 16;
    assert s2 / 4 == y % 16 && s2 % 4 == z / 64;
  }

  /** A final group "xx==" that ends the input decodes to the byte its characters carry. */
  lemma DecodePairGroup(pre: string, group: string)
    requires |group| == 2 && AllAlphabet(group)
    ensures DecodeFrom(pre + group + [PadChar, PadChar], |pre|, []) == Decoded(GroupBytes(group))
  {
    var s := pre + group + [PadChar, PadChar];
    var i := |pre|;
    assert s[i] == group[0] && s[i + 1] == group[1] && s[i + 2] == PadChar && s[i + 3] == PadChar && |s| == i + 4;
    var g1 := [group[0]];
    StepIntoGroup(s, i, []);
    assert [] + [s[i]] == g1;
    StepIntoGroup(s, i + 1, g1);
    assert g1 + [s[i + 1]] == group;
    StepPadding(s, i + 2, group);
  }

  /** A final group "xxx=" that ends the input decodes to the bytes its characters carry. */
  lemma DecodeTripleGroup(pre: string, group: string)
    requires |group| == 3 && AllAlphabet(group)
    ensures DecodeFrom(pre + group + [PadChar], |pre|, []) == Decoded(GroupBytes(group))
  {
    var s := pre + group + [PadChar];
    var i := |pre|;
    assert s[i] == group[0] && s[i + 1] == group[1] && s[i + 2] == group[2] && s[i + 3] == PadChar && |s| == i + 4;
    var g1, g2 := [group[0]], [group[0], group[1]];
    StepIntoGroup(s, i, []);
    assert [] + [s[i]] == g1;
    StepIntoGroup(s, i + 1, g1);
    assert g1 + [s[i + 1]] == g2;
    StepIntoGroup(s, i + 2, g2);
    assert g2 + [s[i + 2]] == group;
    StepPadding(s, i + 3, group);
  }

  /** A final group "xx==" or "xxx=" that ends the input decodes to the bytes its characters carry. */
  lemma DecodePaddedGroup(pre: string, group: string, pad: string)
    requires 2 <= |group| <= 3 && AllAlphabet(group)
    requires pad == if |group| == 2 then [PadChar, PadChar] else [PadChar]
    ensures DecodeFrom(pre + group + pad, |pre|, []) == Decoded(GroupBytes(group))
  {
    if |group| == 2 {
      DecodePairGroup(pre, group);
    } else {
      DecodeTripleGroup(pre, group);
    }
  }

  /** The two characters of a one-byte group give the byte back. */
  lemma OneByteRoundTrip(x: byte)
    ensures GroupBytes([CharOf(x / 4), CharOf(x % 4 * 16)]) == [x]
  {
  }

  /** The three characters of a two-byte group give the bytes back. */
  lemma TwoByteRoundTrip(x: byte, y: byte)
    ensures GroupBytes([CharOf(x / 4), CharOf(x % 4 * 16 + y / 16), CharOf(y % 16 * 4)]) == [x, y]
  {
  }

  /** A full group in the input contributes its three bytes in front of what follows it. */
  lemma DecodeFullGroup(pre: string, g: string, rest: string)
    requires FullGroup(g)
    ensures DecodeFrom(pre + g + rest, |pre|, []) == Prepend(GroupBytes(g), DecodeFrom(pre + g + rest, |pre| + 4, []))
  {
    var s := pre + g + rest;
    var i := |pre|;
    assert s[i] == g[0] && s[i + 1] == g[1] && s[i + 2] == g[2] && s[i + 3] == g[3];
    var g1, g2, g3 := [g[0]], [g[0], g[1]], [g[0], g[1], g[2]];
    StepIntoGroup(s, i, []);
    assert [] + [s[i]] == g1;
    StepIntoGroup(s, i + 1, g1);
    assert g1 + [s[i + 1]] == g2;
    StepIntoGroup(s, i + 2, g2);
    assert g2 + [s[i + 2]] == g3;
    StepCompleteGroup(s, i + 3, g3);
    assert g3 + [s[i + 3]] == g;
  }

  /** Decoding what `Encode` produced, behind any prefix already consumed, gives the bytes back. */
  lemma {:induction false} DecodeEncoded(pre: string, b: seq<byte>)
    ensures DecodeFrom(pre + Encode(b), |pre|, []) == Decoded(b)
    decreases |b|
  {
    if |b| == 0 {
      assert pre + Encode(b) == pre;
    } else if |b| == 1 {
      var g := [CharOf(b[0] / 4), CharOf(b[0] % 4 * 16)];
      assert pre + Encode(b) == pre + g + [PadChar, PadChar];
      DecodePaddedGroup(pre, g, [PadChar, PadChar]);
      OneByteRoundTrip(b[0]);
      assert b == [b[0]];
    } else if |b| == 2 {
      var g := [CharOf(b[0] / 4), CharOf(b[0] % 4 * 16 + b[1] / 16), CharOf(b[1] % 16 * 4)];
      assert pre + Encode(b) == pre + g + [PadChar];
      DecodePaddedGroup(pre, g, [PadChar]);
      TwoByteRoundTrip(b[0], b[1]);
      assert b == [b[0], b[1]];
    } else {
      var g := EncodeGroup(b[0], b[1], b[2]);
      assert pre + Encode(b) == pre + g + Encode(b[3..]);
      DecodeFullGroup(pre, g, Encode(b[3..]));
      assert pre + g + Encode(b[3..]) == (pre + g) + Encode(b[3..]);
      DecodeEncoded(pre + g, b[3..]);
      GroupRoundTrip(b[0], b[1], b[2]);
      assert b == [b[0], b[1], b[2]] + b[3..];
    }
  }

  /** Round trip: `DecodeString(EncodeToString(b)) == b`. */
  lemma RoundTrip(b: seq<byte>)
    ensures Decode(Encode(b)) == Decoded(b)
  {
    DecodeEncoded([], b);
    assert [] + Encode(b) == Encode(b);
  }

  /** The encoder only produces well-formed text. */
  lemma EncodeWellFormed(b: seq<byte>)
    ensures WellFormed(Strip(Encode(b)))
  {
    RoundTrip(b);
    DecodeAccepts(Encode(b));
  }
}

=== FILE: bytes.dfy ===
/** Octets, as Go's `byte` holds them; shared by the base64 and UTF-8 codecs. */
module Bytes {

  type byte = x: int | 0 <= x < 256
}

=== FILE: decimal.dfy ===
/** Base-10 rendering of non-negative integers, as Go's `%d` verb and `strconv.FormatInt(n, 10)` produce it. */
module Decimal {
  import opened Wrappers

  predicate IsDigit(c: char) {
    '0' <= c <= '9'
  }

  predicate AllDigits(s: string) {
    forall i :: 0 <= i < |s| ==> IsDigit(s[i])
  }

  function DigitValue(c: char): (d: nat)
    requires IsDigit(c)
    ensures d < 10
  {
    (c as int) - ('0' as int)
  }

  function DigitChar(d: nat): (c: char)
    requires d < 10
    ensures IsDigit(c) && DigitValue(c) == d
  {
    ('0' as int + d) as char
  }

  /** The decimal digits of `n`, most significant first, without leading zeros. */
  function Format(n: nat): (s: string)
    ensures |s| > 0 && AllDigits(s)
    ensures s[0] == '0' ==> n == 0 && |s| == 1
    decreases n
  {
    if n < 10 then [DigitChar(n)] else Format(n / 10) + [DigitChar(n % 10)]
  }

  /** The number a string of decimal digits denotes. */
  function ValueOf(s: string): nat
    requires AllDigits(s)
    decreases |s|
  {
    if |s| == 0 then 0 else ValueOf(s[..|s| - 1]) * 10 + DigitValue(s[|s| - 1])
  }

  /** Reads a non-empty run of decimal digits; anything else is rejected. */
  function Parse(s: string): (r: Option<nat>)
    ensures r.Some? <==> |s| > 0 && AllDigits(s)
  {
    if |s| > 0 && AllDigits(s) then Some(ValueOf(s)) else None
  }

  /** Reading back a rendered number gives the number: `Format` loses nothing. */
  lemma {:induction false} ParseFormat(n: nat)
    ensures Parse(Format(n)) == Some(n)
    decreases n
  {
    var s := Format(n);
    if n < 10 {
      assert s[..0] == [] && s[0] == DigitChar(n);
      assert ValueOf(s) == ValueOf(s[..0]) * 10 + DigitValue(s[0]);
    } else {
      ParseFormat(n / 10);
      assert s[..|s| - 1] == Format(n / 10);
    }
  }
}

=== FILE: dispatcher.dfy ===
/**
 * The generic request dispatcher of internal/server.go: `APIHandler` wraps a
 * typed handler into an HTTP handler that picks the input source, decodes the
 * input, runs the handler inside a panic boundary (`handleWithPanicRecovery`)
 * and writes exactly one `{statusCode, body}` envelope.
 *
 * The query-string decoder (gorilla/schema), the body decoder (encoding/json)
 * and the handler are parameters: the model sees only what they report.
 */
module Dispatcher {
  import opened Wrappers
  import opened Errors

  /** Query parameters as net/url parses them: each key with its values. */
  type Query = map<string, seq<string>>

  /** The parts of an HTTP request the dispatcher reads. */
  datatype Request = Request(query: Query, body: string)

  /** What `schema.Decoder.Decode` reports for the query string. */
  datatype QueryDecode<I> = QueryValue(value: I) | QueryError(text: string)

  /** What `json.Decoder.Decode` reports for the body; `BodyEof` is `io.EOF`, an empty body. */
  datatype BodyDecode<I> = BodyValue(value: I) | BodyEof | BodyError(text: string)

  /**
   * What a handler call does: return an output pointer (None for nil) and an
   * error (None for nil) — both may be set — or panic with a value whose `%s`
   * rendering is `rendered`.
   */
  datatype Outcome<O> = Returned(out: Option<O>, err: Option<Error>) | Panicked(rendered: string)

  /** `Response[T]`: the envelope every reply is wrapped in. */
  datatype Response<T> = Response(statusCode: int, body: T)

  /** The envelope body: the handler's output, or a reason string. */
  datatype Payload<O> = Output(out: Option<O>) | Reason(text: string)

  /** One reply: the status line written and the envelope encoded after it. */
  datatype Reply<O> = Reply(status: int, envelope: Response<Payload<O>>)

  /** One request served: the input the handler ran on (None if it never ran) and the reply. */
  datatype Exchange<I, O> = Exchange(handledWith: Option<I>, reply: Reply<O>)

  const StatusOK := 200
  const StatusBadRequest := 400
  const StatusInternalServerError := 500

  /** The only body a 500 reply ever carries. */
  const InternalErrorText := "Internal server error"

  /** `OkResponse(body)`. */
  function OkResponse<T>(body: T): (r: Response<T>)
    ensures r.statusCode == StatusOK && r.body == body
  {
    Response(StatusOK, body)
  }

  /** The `handleBadRequest` closure: status 400 and the reason, both in the status line and the envelope. */
  function BadRequestReply<O>(reason: string): (r: Reply<O>)
    ensures r.status == r.envelope.statusCode == StatusBadRequest
    ensures r.envelope.body == Reason(reason)
  {
    Reply(StatusBadRequest, Response(StatusBadRequest, Reason(reason)))
  }

  /** The `handleError` closure: status 500 and the fixed text; the error itself is only logged. */
  function InternalErrorReply<O>(): (r: Reply<O>)
    ensures r.status == r.envelope.statusCode == StatusInternalServerError
    ensures r.envelope.body == Reason(InternalErrorText)
  {
    Reply(StatusInternalServerError, Response(StatusInternalServerError, Reason(InternalErrorText)))
  }

  /** The outcome of reading the input: a value for the handler, or the decoder's error text. */
  datatype Input<I> = Accepted(value: I) | Rejected(reason: string)

  /**
   * Input selection: the query string when it has any parameter, otherwise the
   * body, where an empty body leaves the zero value `zero` (`new(I)`).
   */
  function DecodeInput<I>(req: Request, zero: I, fromQuery: Query -> QueryDecode<I>, fromBody: string -> BodyDecode<I>): (r: Input<I>)
    ensures |req.query| > 0 ==> (r.Rejected? <==> fromQuery(req.query).QueryError?)
    ensures |req.query| == 0 ==> (r.Rejected? <==> fromBody(req.body).BodyError?)
    ensures r.Rejected? ==>
      (|req.query| > 0 && fromQuery(req.query) == QueryError(r.reason)) ||
      (|req.query| == 0 && fromBody(req.body) == BodyError(r.reason))
    ensures r.Accepted? ==>
      (|req.query| > 0 && fromQuery(req.query) == QueryValue(r.value)) ||
      (|req.query| == 0 && (fromBody(req.body) == BodyValue(r.value) || (fromBody(req.body) == BodyEof && r.value == zero)))
  {
    if |req.query| > 0 then
      match fromQuery(req.query)
      case QueryValue(v) => Accepted(v)
      case QueryError(text) => Rejected(text)
    else
      match fromBody(req.body)
      case BodyValue(v) => Accepted(v)
      case BodyEof => Accepted(zero)
      case BodyError(text) => Rejected(text)
  }

  /**
   * `handleWithPanicRecovery`: a returning handler's results pass through; a
   * panic becomes the ordinary error "panic: <value>" with a nil output.
   */
  function Recover<O>(o: Outcome<O>): (r: (Option<O>, Option<Error>))
    ensures o.Returned? ==> r == (o.out, o.err)
    ensures o.Panicked? ==> r.0.None? && r.1.Some?
    ensures o.Panicked? ==> FindBadRequest(r.1.value).None? && Message(r.1.value) == "panic: " + o.rendered
  {
    match o
    case Returned(out, err) => (out, err)
    case Panicked(rendered) => (None, Some(Foreign("panic: " + rendered)))
  }

  /** The reply for the handler's (recovered) results: the error, if any, decides before the output. */
  function Respond<O>(out: Option<O>, err: Option<Error>): (r: Reply<O>)
    ensures r.envelope.statusCode == r.status
    ensures r.status in {StatusOK, StatusBadRequest, StatusInternalServerError}
    ensures r.status == StatusOK <==> err.None?
    ensures r.status == StatusOK ==> r.envelope.body == Output(out)
    ensures r.status == StatusBadRequest <==> err.Some? && FindBadRequest(err.value).Some?
    ensures r.status == StatusBadRequest ==> r.envelope.body == Reason(FindBadRequest(err.value).value)
    ensures r.status == StatusInternalServerError ==> r.envelope.body == Reason(InternalErrorText)
  {
    match err
    case None => Reply(StatusOK, OkResponse(Output(out)))
    case Some(e) =>
      match FindBadRequest(e)
      case Some(reason) => BadRequestReply(reason)
      case None => InternalErrorReply()
  }

  /** `APIHandler(handler)` serving one request. */
  function Serve<I, O>(
    req: Request, zero: I,
    fromQuery: Query -> QueryDecode<I>, fromBody: string -> BodyDecode<I>,
    handler: I -> Outcome<O>
  ): (x: Exchange<I, O>)
    ensures x.reply.envelope.statusCode == x.reply.status
    ensures x.reply.status in {StatusOK, StatusBadRequest, StatusInternalServerError}
    ensures x.reply.status == StatusOK <==> x.reply.envelope.body.Output?
    ensures x.reply.status == StatusInternalServerError ==> x.reply.envelope.body == Reason(InternalErrorText)
    ensures x.handledWith.None? <==> DecodeInput(req, zero, fromQuery, fromBody).Rejected?
    ensures x.handledWith.Some? ==> DecodeInput(req, zero, fromQuery, fromBody) == Accepted(x.handledWith.value)
    ensures x.handledWith.None? ==> x.reply.status == StatusBadRequest
    ensures x.reply.status == StatusOK ==>
      x.handledWith.Some? && handler(x.handledWith.value).Returned? && handler(x.handledWith.value).err.None? &&
      x.reply.envelope.body == Output(handler(x.handledWith.value).out)
  {
    match DecodeInput(req, zero, fromQuery, fromBody)
    case Rejected(reason) => Exchange(None, BadRequestReply(reason))
    case Accepted(v) =>
      var (out, err) := Recover(handler(v));
      Exchange(Some(v), Respond(out, err))
  }

  // ---------------------------------------------------------------------------
  // Properties of the dispatcher

  /** With a query parameter present the body is never read: neither its text nor the body decoder matters. */
  lemma QueryTakesPrecedence<I, O>(
    req: Request, otherBody: string, zero: I,
    fromQuery: Query -> QueryDecode<I>, fromBody: string -> BodyDecode<I>, otherFromBody: string -> BodyDecode<I>,
    handler: I -> Outcome<O>
  )
    requires |req.query| > 0
    ensures Serve(req, zero, fromQuery, fromBody, handler) ==
            Serve(req.(body := otherBody), zero, fromQuery, otherFromBody, handler)
  {
  }

  /** Without query parameters the query decoder is never consulted. */
  lemma BodyWithoutQuery<I, O>(
    req: Request, zero: I,
    fromQuery: Query -> QueryDecode<I>, otherFromQuery: Query -> QueryDecode<I>, fromBody: string -> BodyDecode<I>,
    handler: I -> Outcome<O>
  )
    requires |req.query| == 0
    ensures Serve(req, zero, fromQuery, fromBody, handler) == Serve(req, zero, otherFromQuery, fromBody, handler)
  {
  }

  /** An empty body is not an error: the handler runs on the zero value. */
  lemma EmptyBodyRunsOnZero<I, O>(
    req: Request, zero: I,
    fromQuery: Query -> QueryDecode<I>, fromBody: string -> BodyDecode<I>,
    handler: I -> Outcome<O>
  )
    requires |req.query| == 0 && fromBody(req.body) == BodyEof
    ensures Serve(req, zero, fromQuery, fromBody, handler).handledWith == Some(zero)
  {
  }

  /** A decoding failure from either source is a 400 carrying the decoder's text, and the handler never runs. */
  lemma DecodeFailureIsBadRequest<I, O>(
    req: Request, zero: I,
    fromQuery: Query -> QueryDecode<I>, fromBody: string -> BodyDecode<I>,
    handler: I -> Outcome<O>, text: string
  )
    requires (|req.query| > 0 && fromQuery(req.query) == QueryError(text)) ||
             (|req.query| == 0 && fromBody(req.body) == BodyError(text))
    ensures Serve(req, zero, fromQuery, fromBody, handler) ==
            Exchange(None, Reply(StatusBadRequest, Response(StatusBadRequest, Reason(text))))
  {
  }

  /** A handler error that is, or wraps, a `BadRequestError` is a 400 carrying its reason, whatever the output. */
  lemma BadRequestErrorIs400<I, O>(
    req: Request, zero: I,
    fromQuery: Query -> QueryDecode<I>, fromBody: string -> BodyDecode<I>,
    handler: I -> Outcome<O>, v: I, out: Option<O>, contexts: seq<string>, reason: string
  )
    requires DecodeInput(req, zero, fromQuery, fromBody) == Accepted(v)
    requires handler(v) == Returned(out, Some(WrapAll(contexts, BadRequest(reason))))
    ensures Serve(req, zero, fromQuery, fromBody, handler) ==
            Exchange(Some(v), Reply(StatusBadRequest, Response(StatusBadRequest, Reason(reason))))
  {
    WrappingKeepsBadRequest(contexts, BadRequest(reason));
  }

  /**
   * Any other handler error is a 500 with the fixed text: two handlers whose
   * errors differ in every detail get the same reply, so no detail leaks.
   */
  lemma OtherErrorsAreHidden<I, O>(
    req: Request, zero: I,
    fromQuery: Query -> QueryDecode<I>, fromBody: string -> BodyDecode<I>,
    handler: I -> Outcome<O>, otherHandler: I -> Outcome<O>, v: I
  )
    requires DecodeInput(req, zero, fromQuery, fromBody) == Accepted(v)
    requires handler(v).Returned? && handler(v).err.Some? && FindBadRequest(handler(v).err.value).None?
    requires otherHandler(v).Returned? && otherHandler(v).err.Some? && FindBadRequest(otherHandler(v).err.value).None?
    ensures Serve(req, zero, fromQuery, fromBody, handler) == Serve(req, zero, fromQuery, fromBody, otherHandler)
    ensures Serve(req, zero, fromQuery, fromBody, handler).reply ==
            Reply(StatusInternalServerError, Response(StatusInternalServerError, Reason(InternalErrorText)))
  {
  }

  /** A panicking handler does not escape the dispatcher: the request gets the fixed 500 reply. */
  lemma PanicIsInternalError<I, O>(
    req: Request, zero: I,
    fromQuery: Query -> QueryDecode<I>, fromBody: string -> BodyDecode<I>,
    handler: I -> Outcome<O>, v: I
  )
    requires DecodeInput(req, zero, fromQuery, fromBody) == Accepted(v)
    requires handler(v).Panicked?
    ensures Serve(req, zero, fromQuery, fromBody, handler) ==
            Exchange(Some(v), Reply(StatusInternalServerError, Response(StatusInternalServerError, Reason(InternalErrorText))))
  {
  }

  /** A handler returning no error gets a 200 whose envelope carries its output. */
  lemma SuccessIsOk<I, O>(
    req: Request, zero: I,
    fromQuery: Query -> QueryDecode<I>, fromBody: string -> BodyDecode<I>,
    handler: I -> Outcome<O>, v: I, out: Option<O>
  )
    requires DecodeInput(req, zero, fromQuery, fromBody) == Accepted(v)
    requires handler(v) == Returned(out, None)
    ensures Serve(req, zero, fromQuery, fromBody, handler) ==
            Exchange(Some(v), Reply(StatusOK, OkResponse(Output(out))))
  {
  }

  /**
   * The status-400 classification in both directions: a 400 comes exactly from
   * a decoding failure or from a handler error holding a `BadRequestError`.
   */
  lemma BadRequestExactly<I, O>(
    req: Request, zero: I,
    fromQuery: Query -> QueryDecode<I>, fromBody: string -> BodyDecode<I>,
    handler: I -> Outcome<O>
  )
    ensures var x := Serve(req, zero, fromQuery, fromBody, handler);
            var input := DecodeInput(req, zero, fromQuery, fromBody);
            x.reply.status == StatusBadRequest <==>
              (input.Rejected? ||
               (handler(input.value).Returned? && handler(input.value).err.Some? &&
                FindBadRequest(handler(input.value).err.value).Some?))
  {
  }
}

=== FILE: errors.dfy ===
/**
 * Go error values as the core produces and inspects them: the request-level
 * `BadRequestError` (internal/server.go), the value of `NotFound(..)`, contexts
 * added by `errors.Wrap`/`errors.Wrapf` of github.com/pkg/errors, and errors made
 * by `errors.New`/`errors.Errorf` or by libraries.
 */
module Errors {
  import opened Wrappers
  import opened Strings

  datatype Error =
    | BadRequestError(reason: string)
      /** The value `NotFound(reason)` returns. `NotFound` itself is not part of this
          model; it is taken to be some error type other than `*BadRequestError`. */
    | NotFoundError(reason: string)
      /** `errors.Wrapf(cause, context)`: unwraps to `cause`. */
    | Wrapped(context: string, cause: Error)
      /** An error with no cause and no type the dispatcher looks for. */
    | Foreign(text: string)

  /** `BadRequest(reason)`: a client-input error that the dispatcher recognises. */
  function BadRequest(reason: string): (e: Error)
    ensures FindBadRequest(e) == Some(reason)
    ensures Message(e) == reason
  {
    BadRequestError(reason)
  }

  /** The end of the unwrap chain. */
  function Root(e: Error): (r: Error)
    ensures !r.Wrapped?
  {
    if e.Wrapped? then Root(e.cause) else e
  }

  /** The text an error without a cause reports. */
  function OwnText(e: Error): string
    requires !e.Wrapped?
  {
    match e
    case BadRequestError(reason) => reason
    case NotFoundError(reason) => reason
    case Foreign(text) => text
  }

  /** `err.Error()`: each wrapping context is put in front of its cause's text, as "context: cause". */
  function Message(e: Error): (m: string)
    ensures IsSuffix(OwnText(Root(e)), m)
    ensures e.Wrapped? ==> IsPrefix(e.context + ": ", m)
  {
    match e
    case Wrapped(context, cause) => context + ": " + Message(cause)
    case _ => OwnText(e)
  }

  /**
   * `errors.As(err, &target)` with `target` a `*BadRequestError`: walks the unwrap
   * chain and yields the reason of the first `BadRequestError` found.
   */
  function FindBadRequest(e: Error): (r: Option<string>)
    ensures r.Some? <==> Root(e).BadRequestError?
    ensures r.Some? ==> r.value == Root(e).reason
  {
    match e
    case BadRequestError(reason) => Some(reason)
    case Wrapped(_, cause) => FindBadRequest(cause)
    case _ => None
  }

  /** Wraps `e` in the given contexts, outermost first. */
  function WrapAll(contexts: seq<string>, e: Error): (w: Error)
    ensures Root(w) == Root(e)
    decreases |contexts|
  {
    if |contexts| == 0 then e else Wrapped(contexts[0], WrapAll(contexts[1..], e))
  }

  /** However deeply it is wrapped, a `BadRequestError` is still found, and nothing else is. */
  lemma WrappingKeepsBadRequest(contexts: seq<string>, e: Error)
    ensures FindBadRequest(WrapAll(contexts, e)) == FindBadRequest(e)
  {
  }

  /** `errors.Wrapf(err, context)`: a nil error stays nil, any other gains the context. */
  function Wrap(err: Option<Error>, context: string): (r: Option<Error>)
    ensures r.None? <==> err.None?
    ensures r.Some? ==> Root(r.value) == Root(err.value)
    ensures r.Some? ==> FindBadRequest(r.value) == FindBadRequest(err.value)
    ensures r.Some? ==> Message(r.value) == context + ": " + Message(err.value)
  {
    match err
    case None => None
    case Some(e) => Some(Wrapped(context, e))
  }
}

=== FILE: handlers.dfy ===
/**
 * The typed handlers of internal/handler.go: the health check, secret retrieval
 * and object upload. The secret store and the object store are foreign calls:
 * each handler takes the store as a function from its request to its reply and
 * reports which request, if any, it made.
 */
module Handlers {
  import opened Wrappers
  import opened Strings
  import opened Errors
  import opened Bytes
  import opened Base64
  import opened Dispatcher
  import Utf8

  // ---------------------------------------------------------------------------
  // Health check

  datatype HealthResponse = HealthResponse(status: string)

  const HealthyStatus := "healthy"

  /** `HealthHandler`: whatever the input, reports "healthy" and no error. */
  function HealthHandler<I>(input: I): (r: Outcome<HealthResponse>)
    ensures r.Returned? && r.err.None? && r.out == Some(HealthResponse("healthy"))
  {
    Returned(Some(HealthResponse(HealthyStatus)), None)
  }

  /** Served through the dispatcher, every request whose input decodes gets `{200, {"status": "healthy"}}`. */
  lemma HealthEndpoint<I>(req: Request, zero: I, fromQuery: Query -> QueryDecode<I>, fromBody: string -> BodyDecode<I>)
    requires DecodeInput(req, zero, fromQuery, fromBody).Accepted?
    ensures Serve(req, zero, fromQuery, fromBody, (i: I) => HealthHandler(i)).reply ==
            Reply(StatusOK, Response(StatusOK, Output(Some(HealthResponse(HealthyStatus)))))
  {
  }

  // ---------------------------------------------------------------------------
  // Secret retrieval

  datatype GetSecretRequest = GetSecretRequest(secretId: string)
  datatype GetSecretResponse = GetSecretResponse(value: string)

  /** The part of `GetSecretValueOutput` the handler reads; None stands for a nil field. */
  datatype SecretValue = SecretValue(secretString: Option<string>, secretBinary: Option<seq<byte>>)

  /** The secret store's reply to `GetSecretValue`: the value, or the error's text. */
  datatype StoreReply = Found(secret: SecretValue) | StoreFailed(text: string)

  /** One run of the secret handler: the identifier it asked the store for, if any, and its outcome. */
  datatype SecretRun = SecretRun(queried: Option<string>, outcome: Outcome<GetSecretResponse>)

  const MissingSecretIdReason := "secretId is required"
  const StoreNotFoundMarker := "Code: 400"
  const EmptySecretText := "aws secret client returned neither string nor binary value"

  /**
   * The secret's text as the client receives it: the string form when present,
   * otherwise the binary form converted by `string(..)`, which reaches the client
   * as the UTF-8 text those bytes spell.
   */
  function SecretText(secret: SecretValue): (r: Option<string>)
    ensures r.Some? <==> secret.secretString.Some? || secret.secretBinary.Some?
    ensures secret.secretString.Some? ==> r == secret.secretString
    ensures secret.secretString.None? && secret.secretBinary.Some? ==>
      r == Some(Utf8.Decode(secret.secretBinary.value))
  {
    match secret.secretString
    case Some(text) => Some(text)
    case None =>
      match secret.secretBinary
      case Some(bytes) => Some(Utf8.Decode(bytes))
      case None => None
  }

  /** `GetSecretHandler(sm)` applied to `req`, with `store` standing for `sm.GetSecretValue`. */
  function GetSecret(store: string -> StoreReply, req: GetSecretRequest): (r: SecretRun)
    ensures r.outcome.Returned?
    ensures r.queried.None? <==> req.secretId == ""
    ensures r.queried.Some? ==> r.queried.value == req.secretId
    ensures req.secretId == "" ==> r.outcome == Returned(None, Some(BadRequest(MissingSecretIdReason)))
    ensures r.outcome.Returned? && r.outcome.err.Some? && FindBadRequest(r.outcome.err.value).Some? ==> req.secretId == ""
    ensures r.outcome.Returned? && r.outcome.err.Some? ==> r.outcome.out.None?
    ensures r.outcome.Returned? && r.outcome.err.None? ==>
      req.secretId != "" && store(req.secretId).Found? && SecretText(store(req.secretId).secret).Some? &&
      r.outcome.out == Some(GetSecretResponse(SecretText(store(req.secretId).secret).value))
  {
    if req.secretId == "" then
      SecretRun(None, Returned(None, Some(BadRequest(MissingSecretIdReason))))
    else
      var outcome :=
        match store(req.secretId)
        case StoreFailed(text) =>
          if Contains(text, StoreNotFoundMarker) then
            Returned(None, Some(NotFoundError("secret not found: " + req.secretId)))
          else
            Returned(None, Wrap(Some(Foreign(text)), "getting secret " + req.secretId))
        case Found(secret) =>
          match SecretText(secret)
          case Some(text) => Returned(Some(GetSecretResponse(text)), None)
          case None => Returned(None, Some(Foreign(EmptySecretText)));
      SecretRun(Some(req.secretId), outcome)
  }

  /** The string form wins over the binary form; with neither the handler fails. */
  lemma SecretValuePrecedence(store: string -> StoreReply, req: GetSecretRequest)
    requires req.secretId != "" && store(req.secretId).Found?
    ensures var secret := store(req.secretId).secret;
            var o := GetSecret(store, req).outcome;
            (secret.secretString.Some? ==> o == Returned(Some(GetSecretResponse(secret.secretString.value)), None)) &&
            (secret.secretString.None? && secret.secretBinary.Some? ==>
               o == Returned(Some(GetSecretResponse(Utf8.Decode(secret.secretBinary.value))), None)) &&
            (secret.secretString.None? && secret.secretBinary.None? ==>
               o == Returned(None, Some(Foreign(EmptySecretText))))
  {
  }

  /** A secret stored in binary form as the UTF-8 bytes of a text reaches the client as that same text. */
  lemma BinaryFormSameText(text: string)
    ensures SecretText(SecretValue(None, Some(Utf8.Encode(text)))) == SecretText(SecretValue(Some(text), None))
  {
    Utf8.DecodeEncode(text);
  }

  /** A binary secret of bytes below 0x80 reads as one character per byte, with the same code. */
  lemma AsciiBinarySecret(bytes: seq<byte>)
    requires forall i :: 0 <= i < |bytes| ==> bytes[i] < 0x80
    ensures var r := SecretText(SecretValue(None, Some(bytes)));
            r.Some? && |r.value| == |bytes| && forall i :: 0 <= i < |bytes| ==> r.value[i] as int == bytes[i]
  {
    Utf8.DecodeAscii(bytes);
  }

  /** A store error mentioning "Code: 400" anywhere becomes `NotFound("secret not found: " + id)`. */
  lemma StoreCode400IsNotFound(store: string -> StoreReply, req: GetSecretRequest, before: string, after: string)
    requires req.secretId != "" && store(req.secretId) == StoreFailed(before + StoreNotFoundMarker + after)
    ensures GetSecret(store, req).outcome == Returned(None, Some(NotFoundError("secret not found: " + req.secretId)))
  {
    ContainsInMiddle(before, StoreNotFoundMarker, after);
  }

  /** Any other store error is returned wrapped: its text is kept at the end, and it is no client error. */
  lemma OtherStoreErrorsAreWrapped(store: string -> StoreReply, req: GetSecretRequest, text: string)
    requires req.secretId != "" && store(req.secretId) == StoreFailed(text)
    requires forall i :: !OccursAt(text, StoreNotFoundMarker, i)
    ensures var o := GetSecret(store, req).outcome;
            o.Returned? && o.out.None? && o.err.Some? &&
            FindBadRequest(o.err.value).None? &&
            Message(o.err.value) == "getting secret " + req.secretId + ": " + text
  {
    ContainsIffOccurs(text, StoreNotFoundMarker);
  }

  /**
   * Served through the dispatcher: a missing identifier is a 400 naming it, and
   * every store failure, "Code: 400" included, is the fixed 500 (the dispatcher
   * recognises no error kind but `BadRequestError`).
   */
  lemma SecretEndpoint(
    store: string -> StoreReply, req: Request, zero: GetSecretRequest,
    fromQuery: Query -> QueryDecode<GetSecretRequest>, fromBody: string -> BodyDecode<GetSecretRequest>,
    input: GetSecretRequest
  )
    requires DecodeInput(req, zero, fromQuery, fromBody) == Accepted(input)
    ensures var x := Serve(req, zero, fromQuery, fromBody, (r: GetSecretRequest) => GetSecret(store, r).outcome);
            (input.secretId == "" ==>
               x.reply == Reply(StatusBadRequest, Response(StatusBadRequest, Reason(MissingSecretIdReason)))) &&
            (input.secretId != "" && store(input.secretId).StoreFailed? ==>
               x.reply == Reply(StatusInternalServerError, Response(StatusInternalServerError, Reason(InternalErrorText))))
  {
  }

  // ---------------------------------------------------------------------------
  // Object upload

  datatype UploadFileRequest = UploadFileRequest(bucket: string, key: string, contentType: string, data: string)
  datatype UploadFileResponse = UploadFileResponse

  /** The `PutObjectInput` sent to the object store; a None content type is an unset field. */
  datatype PutObjectInput = PutObjectInput(bucket: string, key: string, body: seq<byte>, contentType: Option<string>)

  /** One run of the upload handler: the upload it made, if any, and its outcome. */
  datatype UploadRun = UploadRun(uploaded: Option<PutObjectInput>, outcome: Outcome<UploadFileResponse>)

  const InvalidBase64Prefix := "invalid base64 data: "

  /** The first failing input check, in the order bucket, key, data, base64; None when all pass. */
  function UploadProblem(req: UploadFileRequest): (p: Option<string>)
    ensures req.bucket == "" ==> p == Some("bucket is required")
    ensures req.bucket != "" && req.key == "" ==> p == Some("key is required")
    ensures req.bucket != "" && req.key != "" && req.data == "" ==> p == Some("data is required")
    ensures req.bucket != "" && req.key != "" && req.data != "" ==>
      (p.None? <==> Decode(req.data).Decoded?) &&
      (p.Some? ==> p == Some(InvalidBase64Prefix + CorruptText(Decode(req.data).offset)))
  {
    if req.bucket == "" then Some("bucket is required")
    else if req.key == "" then Some("key is required")
    else if req.data == "" then Some("data is required")
    else
      match Decode(req.data)
      case Corrupt(offset) => Some(InvalidBase64Prefix + CorruptText(offset))
      case Decoded(_) => None
  }

  /** The upload request built from a valid input: content type set only when given. */
  function PutInput(req: UploadFileRequest, body: seq<byte>): (u: PutObjectInput)
    ensures u.bucket == req.bucket && u.key == req.key && u.body == body
    ensures u.contentType.Some? <==> req.contentType != ""
    ensures u.contentType.Some? ==> u.contentType.value == req.contentType
  {
    PutObjectInput(req.bucket, req.key, body, if req.contentType != "" then Some(req.contentType) else None)
  }

  /** `S3PutHandler(s3Client)` applied to `req`, with `put` standing for `s3Client.PutObject` (None: no error). */
  function S3Put(put: PutObjectInput -> Option<string>, req: UploadFileRequest): (r: UploadRun)
    ensures r.outcome.Returned?
    ensures r.uploaded.None? <==> UploadProblem(req).Some?
    ensures r.uploaded.None? ==> r.outcome == Returned(None, Some(BadRequest(UploadProblem(req).value)))
    ensures r.uploaded.Some? ==> Decode(req.data).Decoded? && r.uploaded.value == PutInput(req, Decode(req.data).bytes)
    ensures r.uploaded.Some? ==>
      r.outcome.Returned? && r.outcome.out == Some(UploadFileResponse) &&
      (r.outcome.err.None? <==> put(r.uploaded.value).None?) &&
      (r.outcome.err.Some? ==> FindBadRequest(r.outcome.err.value).None?)
    ensures r.uploaded.Some? && r.outcome.Returned? && r.outcome.err.Some? ==>
      Message(r.outcome.err.value) == "uploading file to s3://" + req.bucket + "/" + req.key + ": " + put(r.uploaded.value).value
  {
    match UploadProblem(req)
    case Some(reason) => UploadRun(None, Returned(None, Some(BadRequest(reason))))
    case None =>
      var input := PutInput(req, Decode(req.data).bytes);
      var err := match put(input) case None => None case Some(text) => Some(Foreign(text));
      UploadRun(Some(input), Returned(Some(UploadFileResponse), Wrap(err, "uploading file to s3://" + req.bucket + "/" + req.key)))
  }

  /** A rejected base64 payload is a client error whose reason starts with "invalid base64 data: "; nothing is uploaded. */
  lemma InvalidBase64Rejected(put: PutObjectInput -> Option<string>, req: UploadFileRequest)
    requires req.bucket != "" && req.key != "" && req.data != ""
    requires !WellFormed(Strip(req.data))
    ensures var r := S3Put(put, req);
            r.uploaded.None? && r.outcome.Returned? && r.outcome.err.Some? &&
            FindBadRequest(r.outcome.err.value).Some? &&
            IsPrefix(InvalidBase64Prefix, FindBadRequest(r.outcome.err.value).value)
  {
    DecodeAccepts(req.data);
    var reason := InvalidBase64Prefix + CorruptText(Decode(req.data).offset);
    assert reason[..|InvalidBase64Prefix|] == InvalidBase64Prefix;
  }

  /** With bucket, key and data given, the upload happens exactly when the data is well-formed base64. */
  lemma UploadsExactlyWellFormed(put: PutObjectInput -> Option<string>, req: UploadFileRequest)
    requires req.bucket != "" && req.key != "" && req.data != ""
    ensures S3Put(put, req).uploaded.Some? <==> WellFormed(Strip(req.data))
  {
    DecodeAccepts(req.data);
  }

  /** The object stored holds exactly the bytes whose encoding was sent, under the bucket and key given. */
  lemma UploadCarriesEncodedBytes(put: PutObjectInput -> Option<string>, req: UploadFileRequest, bytes: seq<byte>)
    requires req.bucket != "" && req.key != "" && |bytes| > 0 && req.data == Encode(bytes)
    ensures S3Put(put, req).uploaded == Some(PutInput(req, bytes))
  {
    RoundTrip(bytes);
  }

  /**
   * Served through the dispatcher: a failed check is a 400 with its reason, a
   * failed upload the fixed 500, a completed upload a 200 with an empty response.
   */
  lemma UploadEndpoint(
    put: PutObjectInput -> Option<string>, req: Request, zero: UploadFileRequest,
    fromQuery: Query -> QueryDecode<UploadFileRequest>, fromBody: string -> BodyDecode<UploadFileRequest>,
    input: UploadFileRequest
  )
    requires DecodeInput(req, zero, fromQuery, fromBody) == Accepted(input)
    ensures var x := Serve(req, zero, fromQuery, fromBody, (r: UploadFileRequest) => S3Put(put, r).outcome);
            var problem := UploadProblem(input);
            (problem.Some? ==>
               x.reply == Reply(StatusBadRequest, Response(StatusBadRequest, Reason(problem.value)))) &&
            (problem.None? && put(PutInput(input, Decode(input.data).bytes)).Some? ==>
               x.reply == Reply(StatusInternalServerError, Response(StatusInternalServerError, Reason(InternalErrorText)))) &&
            (problem.None? && put(PutInput(input, Decode(input.data).bytes)).None? ==>
               x.reply == Reply(StatusOK, Response(StatusOK, Output(Some(UploadFileResponse)))))
  {
  }
}

=== FILE: strings.dfy ===
/** Substring search on strings, as Go's `strings.Contains` performs it. */
module Strings {

  /** `p` is a prefix of `s`. */
  predicate IsPrefix(p: string, s: string) {
    |p| <= |s| && s[..|p|] == p
  }

  /** `p` is a suffix of `s`. */
  predicate IsSuffix(p: string, s: string) {
    |p| <= |s| && s[|s| - |p|..] == p
  }

  /** `strings.Contains(s, sub)`: scans `s` from the left for an occurrence of `sub`. */
  predicate Contains(s: string, sub: string)
    ensures Contains(s, sub) ==> |sub| <= |s|
    ensures IsPrefix(sub, s) ==> Contains(s, sub)
    decreases |s|
  {
    IsPrefix(sub, s) || (|s| > 0 && Contains(s[1..], sub))
  }

  /** Reference definition: `sub` is the window of `s` that starts at offset `i`. */
  ghost predicate OccursAt(s: string, sub: string, i: int) {
    0 <= i && i + |sub| <= |s| && s[i..i + |sub|] == sub
  }

  /** The left-to-right scan finds `sub` exactly when some window of `s` equals it. */
  lemma {:induction false} ContainsIffOccurs(s: string, sub: string)
    ensures Contains(s, sub) <==> exists i :: OccursAt(s, sub, i)
    decreases |s|
  {
    if IsPrefix(sub, s) {
      assert OccursAt(s, sub, 0);
    } else if |s| > 0 {
      ContainsIffOccurs(s[1..], sub);
      if Contains(s[1..], sub) {
        var i :| OccursAt(s[1..], sub, i);
        assert s[1..][i..i + |sub|] == s[i + 1..i + 1 + |sub|];
        assert OccursAt(s, sub, i + 1);
      }
      if exists i :: OccursAt(s, sub, i) {
        var i :| OccursAt(s, sub, i);
        assert s[1..][i - 1..i - 1 + |sub|] == s[i..i + |sub|];
        assert OccursAt(s[1..], sub, i - 1);
      }
    }
  }

  /** Whatever surrounds it, an occurrence of `sub` is found. */
  lemma ContainsInMiddle(pre: string, sub: string, post: string)
    ensures Contains(pre + sub + post, sub)
  {
    var s := pre + sub + post;
    assert s[|pre|..|pre| + |sub|] == sub;
    assert OccursAt(s, sub, |pre|);
    ContainsIffOccurs(s, sub);
  }
}

=== FILE: transport.dfy ===
/**
 * Transport selection (`listen` in internal/server.go): bind a vsock listener on
 * the configured port and fall back to TCP on the same port only when the
 * platform reports vsock as not implemented.
 *
 * The vsock bind and the TCP bind are foreign calls: the first is given as the
 * result it produced, the second as a function from the address asked for to
 * its result.
 */
module Transport {
  import opened Wrappers
  import opened Strings
  import opened Decimal

  /** `config.ServerPort` is a `uint32`. */
  type Port = p: nat | p < 0x1_0000_0000

  /** The default of `SERVER_PORT` (internal/config.go). */
  const DefaultServerPort: Port := 8080

  /** The error text that makes `listen` fall back to TCP. */
  const NotImplementedMarker := "vsock: not implemented"

  datatype Listener = VsockListener(port: Port) | TcpListener(address: string)

  /** A bind call's result: a listener, or the error's text. */
  datatype Bind = Bound(listener: Listener) | BindFailed(text: string)

  /** The result of `listen`, with the TCP address it asked for if it fell back. */
  datatype Acquired = Acquired(tcpAddress: Option<string>, result: Bind)

  /** `fmt.Sprintf(":%d", port)`: every interface, the given port. */
  function TcpAddress(port: Port): (a: string)
    ensures |a| > 1 && a[0] == ':' && Parse(a[1..]) == Some(port)
  {
    ParseFormat(port);
    var a := ":" + Format(port);
    assert a[1..] == Format(port);
    a
  }

  /** `listen(cfg, log)` given what `vsock.Listen(cfg.ServerPort, nil)` returned. */
  function Listen(port: Port, vsock: Bind, listenTcp: string -> Bind): (r: Acquired)
    ensures r.tcpAddress.Some? <==> vsock.BindFailed? && Contains(vsock.text, NotImplementedMarker)
    ensures r.tcpAddress.Some? ==> r.tcpAddress.value == TcpAddress(port) && r.result == listenTcp(r.tcpAddress.value)
    ensures r.tcpAddress.None? ==> r.result == vsock
  {
    if vsock.BindFailed? && Contains(vsock.text, NotImplementedMarker) then
      var address := TcpAddress(port);
      Acquired(Some(address), listenTcp(address))
    else
      Acquired(None, vsock)
  }

  /** However the platform phrases it, an error mentioning the marker leads to TCP on the same port. */
  lemma FallsBackWhenNotImplemented(port: Port, before: string, after: string, listenTcp: string -> Bind)
    ensures var r := Listen(port, BindFailed(before + NotImplementedMarker + after), listenTcp);
            r.tcpAddress.Some? && Parse(r.tcpAddress.value[1..]) == Some(port) &&
            r.result == listenTcp(r.tcpAddress.value)
  {
    ContainsInMiddle(before, NotImplementedMarker, after);
  }

  /** Any other bind failure is returned as it is: the fallback masks nothing else. */
  lemma OtherFailuresPropagate(port: Port, text: string, listenTcp: string -> Bind)
    requires forall i :: !OccursAt(text, NotImplementedMarker, i)
    ensures Listen(port, BindFailed(text), listenTcp) == Acquired(None, BindFailed(text))
  {
    ContainsIffOccurs(text, NotImplementedMarker);
  }

  /** A successful vsock bind is kept, and TCP is never tried. */
  lemma VsockKeptOnSuccess(port: Port, listener: Listener, listenTcp: string -> Bind)
    ensures Listen(port, Bound(listener), listenTcp) == Acquired(None, Bound(listener))
  {
  }
}

=== FILE: utf8.dfy ===
/**
 * The text a Go string of bytes carries to a JSON client. A Go string is a
 * byte sequence; encoding/json reads it rune by rune as `utf8.DecodeRuneInString`
 * does and writes U+FFFD for every byte that does not start a valid UTF-8
 * encoding. UTF-8 itself is the encoding of section 3 of RFC 3629.
 */
module Utf8 {
  import opened Bytes

  /** `utf8.RuneError`, written in place of each byte that starts no valid encoding. */
  const ReplacementChar: char := '\U{FFFD}'

  /** A continuation byte, 10xxxxxx. */
  predicate IsContinuation(b: byte) {
    0x80 <= b <= 0xBF
  }

  /**
   * The length of the encoding a leading byte announces (Go's `first` table):
   * 1 for ASCII, 2 to 4 for a leading byte, 0 for a byte that cannot lead
   * (a continuation byte, the overlong leaders 0xC0 and 0xC1, and 0xF5 and above).
   */
  function SequenceLength(b0: byte): nat {
    if b0 < 0x80 then 1
    else if b0 < 0xC2 then 0
    else if b0 < 0xE0 then 2
    else if b0 < 0xF0 then 3
    else if b0 < 0xF5 then 4
    else 0
  }

  /**
   * The range the second byte must fall in after leading byte `b0` (Go's
   * `acceptRanges`): it rules out overlong forms, surrogates and values above U+10FFFF.
   */
  function SecondLow(b0: byte): byte {
    if b0 == 0xE0 then 0xA0 else if b0 == 0xF0 then 0x90 else 0x80
  }

  function SecondHigh(b0: byte): byte {
    if b0 == 0xED then 0x9F else if b0 == 0xF4 then 0x8F else 0xBF
  }

  /** The code point of a two-byte encoding: 5 bits from the leader, 6 from the continuation byte. */
  function Code2(b0: int, b1: int): int {
    (b0 - 0xC0) * 64 + (b1 - 0x80)
  }

  /** The code point of a three-byte encoding: 4 + 6 + 6 bits. */
  function Code3(b0: int, b1: int, b2: int): int {
    (b0 - 0xE0) * 4096 + (b1 - 0x80) * 64 + (b2 - 0x80)
  }

  /** The code point of a four-byte encoding: 3 + 6 + 6 + 6 bits. */
  function Code4(b0: int, b1: int, b2: int, b3: int): int {
    (b0 - 0xF0) * 262144 + (b1 - 0x80) * 4096 + (b2 - 0x80) * 64 + (b3 - 0x80)
  }

  /**
   * `utf8.DecodeRune(b)` on a non-empty `b`: the first character and the number
   * of bytes it takes. A byte that starts no valid encoding gives U+FFFD and one byte.
   */
  function DecodeRune(b: seq<byte>): (r: (char, nat))
    requires |b| > 0
    ensures 1 <= r.1 <= |b| && r.1 <= 4
    ensures b[0] < 0x80 ==> r == (b[0] as char, 1)
    ensures SequenceLength(b[0]) == 0 ==> r == (ReplacementChar, 1)
    ensures r.1 == 1 && b[0] >= 0x80 ==> r.0 == ReplacementChar
    ensures r.1 > 1 ==> r.1 == SequenceLength(b[0])
  {
    var n := SequenceLength(b[0]);
    if n == 1 then (b[0] as char, 1)
    else if n == 0 || |b| < n || !(SecondLow(b[0]) <= b[1] <= SecondHigh(b[0])) then (ReplacementChar, 1)
    else if n == 2 then (Code2(b[0], b[1]) as char, 2)
    else if !IsContinuation(b[2]) then (ReplacementChar, 1)
    else if n == 3 then (Code3(b[0], b[1], b[2]) as char, 3)
    else if !IsContinuation(b[3]) then (ReplacementChar, 1)
    else (Code4(b[0], b[1], b[2], b[3]) as char, 4)
  }

  /** The text of the Go string `string(b)`: its runes, one after the other. */
  function Decode(b: seq<byte>): (s: string)
    ensures |s| <= |b|
    decreases |b|
  {
    if |b| == 0 then []
    else
      var (c, n) := DecodeRune(b);
      [c] + Decode(b[n..])
  }

  /** The UTF-8 encoding of one character: 1 to 4 bytes by the size of its code point. */
  function EncodeRune(c: char): (b: seq<byte>)
    ensures 1 <= |b| <= 4
  {
    var n := c as int;
    if n < 0x80 then [n]
    else if n < 0x800 then [0xC0 + n / 64, 0x80 + n % 64]
    else if n < 0x10000 then [0xE0 + n / 4096, 0x80 + n / 64 % 64, 0x80 + n % 64]
    else [0xF0 + n / 262144, 0x80 + n / 4096 % 64, 0x80 + n / 64 % 64, 0x80 + n % 64]
  }

  /** The UTF-8 encoding of a text, as Go stores a string literal. */
  function Encode(s: string): (b: seq<byte>)
    ensures |s| <= |b| <= 4 * |s|
    decreases |s|
  {
    if |s| == 0 then [] else EncodeRune(s[0]) + Encode(s[1..])
  }

  // ---------------------------------------------------------------------------
  // Properties

  /** A two-byte encoding is read back as its character. */
  lemma DecodeRuneEncodeRune2(c: char, rest: seq<byte>)
    requires 0x80 <= c as int < 0x800
    ensures DecodeRune(EncodeRune(c) + rest) == (c, 2)
  {
    var n := c as int;
    var b := EncodeRune(c) + rest;
    assert b[0] == 0xC0 + n / 64 && b[1] == 0x80 + n % 64;
    assert Code2(b[0], b[1]) == n;
  }

  /** A three-byte encoding is read back as its character. */
  lemma DecodeRuneEncodeRune3(c: char, rest: seq<byte>)
    requires 0x800 <= c as int < 0x10000
    ensures DecodeRune(EncodeRune(c) + rest) == (c, 3)
  {
    var n := c as int;
    var b := EncodeRune(c) + rest;
    assert b[0] == 0xE0 + n / 4096 && b[1] == 0x80 + n / 64 % 64 && b[2] == 0x80 + n % 64;
    assert Code3(b[0], b[1], b[2]) == n;
  }

  /** A four-byte encoding is read back as its character. */
  lemma DecodeRuneEncodeRune4(c: char, rest: seq<byte>)
    requires 0x10000 <= c as int
    ensures DecodeRune(EncodeRune(c) + rest) == (c, 4)
  {
    var n := c as int;
    var b := EncodeRune(c) + rest;
    assert b[0] == 0xF0 + n / 262144 && b[1] == 0x80 + n / 4096 % 64;
    assert b[2] == 0x80 + n / 64 % 64 && b[3] == 0x80 + n % 64;
    assert Code4(b[0], b[1], b[2], b[3]) == n;
  }

  /** Decoding reads back the character an encoding starts with, whatever follows it. */
  lemma DecodeRuneEncodeRune(c: char, rest: seq<byte>)
    ensures DecodeRune(EncodeRune(c) + rest) == (c, |EncodeRune(c)|)
  {
    var n := c as int;
    if n < 0x80 {
    } else if n < 0x800 {
      DecodeRuneEncodeRune2(c, rest);
    } else if n < 0x10000 {
      DecodeRuneEncodeRune3(c, rest);
    } else {
      DecodeRuneEncodeRune4(c, rest);
    }
  }

  /** Every text survives being stored as UTF-8 bytes and read back. */
  lemma {:induction false} DecodeEncode(s: string)
    ensures Decode(Encode(s)) == s
    decreases |s|
  {
    if |s| > 0 {
      var e := EncodeRune(s[0]);
      DecodeRuneEncodeRune(s[0], Encode(s[1..]));
      assert (e + Encode(s[1..]))[|e|..] == Encode(s[1..]);
      DecodeEncode(s[1..]);
    }
  }

  /** The bit fields of a valid two-byte sequence are read back from its code point by division. */
  lemma EncodeCode2(b0: byte, b1: byte)
    requires 0xC2 <= b0 <= 0xDF && IsContinuation(b1)
    ensures var n := Code2(b0, b1); 0x80 <= n < 0x800 && n / 64 == b0 - 0xC0 && n % 64 == b1 - 0x80
  {
  }

  /** The bit fields of a valid three-byte sequence are read back from its code point by division. */
  lemma EncodeCode3(b0: byte, b1: byte, b2: byte)
    requires 0xE0 <= b0 <= 0xEF && SecondLow(b0) <= b1 <= SecondHigh(b0) && IsContinuation(b2)
    ensures var n := Code3(b0, b1, b2);
            0x800 <= n < 0x10000 && n / 4096 == b0 - 0xE0 && n / 64 % 64 == b1 - 0x80 && n % 64 == b2 - 0x80
  {
    var n := Code3(b0, b1, b2);
    var m := (b0 - 0xE0) * 64 + (b1 - 0x80);
    assert n == m * 64 + (b2 - 0x80);
    assert n / 64 == m;
  }

  /** The bit fields of a valid four-byte sequence are read back from its code point by division. */
  lemma EncodeCode4(b0: byte, b1: byte, b2: byte, b3: byte)
    requires 0xF0 <= b0 <= 0xF4 && SecondLow(b0) <= b1 <= SecondHigh(b0) && IsContinuation(b2) && IsContinuation(b3)
    ensures var n := Code4(b0, b1, b2, b3);
            0x10000 <= n && n / 262144 == b0 - 0xF0 && n / 4096 % 64 == b1 - 0x80 &&
            n / 64 % 64 == b2 - 0x80 && n % 64 == b3 - 0x80
  {
    var n := Code4(b0, b1, b2, b3);
    var m1 := (b0 - 0xF0) * 64 + (b1 - 0x80);
    var m2 := m1 * 64 + (b2 - 0x80);
    assert n == m2 * 64 + (b3 - 0x80);
    assert n / 64 == m2;
    assert m2 / 64 == m1;
    assert n / 4096 == m1;
  }

  /**
   * The converse for one rune: whatever decodes as a character, other than a
   * one-byte replacement, is that character's encoding.
   */
  lemma EncodeDecodeRune(b: seq<byte>)
    requires |b| > 0
    requires DecodeRune(b).1 > 1 || b[0] < 0x80
    ensures EncodeRune(DecodeRune(b).0) == b[..DecodeRune(b).1]
  {
    var k := DecodeRune(b).1;
    if k == 2 {
      EncodeCode2(b[0], b[1]);
    } else if k == 3 {
      EncodeCode3(b[0], b[1], b[2]);
    } else if k == 4 {
      EncodeCode4(b[0], b[1], b[2], b[3]);
    }
  }

  /** Bytes below 0x80 are read one character each, with the same code. */
  lemma {:induction false} DecodeAscii(b: seq<byte>)
    requires forall i :: 0 <= i < |b| ==> b[i] < 0x80
    ensures |Decode(b)| == |b|
    ensures forall i :: 0 <= i < |b| ==> Decode(b)[i] as int == b[i]
    decreases |b|
  {
    if |b| > 0 {
      DecodeAscii(b[1..]);
    }
  }
}

=== FILE: wrappers.dfy ===
/** Optional values: the model's stand-in for Go's nil pointers and nil errors. */
module Wrappers {

  datatype Option<T> = None | Some(value: T)
}
